=== FILE: README.md ===
# Clothing items and their factory, in Dafny

This project models the core of a small Python exercise in object-oriented
programming. It has two parts:

- **Items** (`src/clothes/items.py`). A `Clothes` object has six named
  attributes (`size`, `color`, `price`, `material`, `id`, `category`), each
  `None` unless given. Any further keyword argument becomes an attribute of
  its own. `Top`, `Headwear` and `Bottoms` each add one attribute (`sleeves`,
  `style`, `length`); `Footwear` adds none. `to_sql_query` renders an item as
  `INSERT INTO Clothes (<seven fixed columns>) VALUES (<seven values>)`.
- **Factory** (`src/clothes/factory.py`). `create_clothes` rejects an unknown
  category with `ValueError`. Otherwise it builds the matching variant with a
  generated id. `_generate_id` writes the category's one-digit prefix in front
  of a nanosecond clock reading and reads the result as one integer.
  `create_random_clothes` draws the category, size, color, price and
  material at random, takes the id from the clock, and then sets the
  category's extra attribute on a plain `Clothes` object.

How the model is laid out:

- `decimal.dfy` (module `Decimal`): the decimal text Python's `str(int)`
  writes and `int(str)` reads. It proves that the two are inverse, and that
  reading a concatenation shifts the first part left.
- `pyvalues.dfy` (module `PyValues`): attribute values (`None`, bool, int,
  str, float), `str()` on them, and the exceptions the core raises.
- `sqltext.dfy` (module `SqlText`): `", ".join` and, as an independent
  reference, the splitting that reads a joined list back.
- `items.dfy` (module `Items`): the item as a class `Clothes`.
  - The six named attributes are fields. The attributes added with `setattr`
    live in the map `extra`. `kind` records the Python class.
  - The four variants are named constructors of that class.
  - `Attrs` is a value snapshot of an item, and the serializer is a
    function on it.
- `factory.dfy` (module `Factory`): the two category tables, id generation,
  `create_clothes` and `create_random_clothes`.
  - The clock reading is a `nat` parameter.
  - Each random draw is a parameter holding its outcome: an index into the
    list drawn from, the size, and the price in cents.

What the code does, and the model proves:

- Serialisation looks up `style` on every item. The six named attributes
  always exist, so `to_sql_query` fails exactly when `style` is missing.
  - Items from `Top`, `Footwear` and `Bottoms` therefore never serialise as
    constructed. They do once `style` is assigned to them.
  - A random item serialises only when its category is `Headwear`.
  - `main.py` serialises one random item, so three of the four categories
    raise `AttributeError` there.
- The subclass constructors do not pass `category` on, so items built by
  `create_clothes` have category `None`.
- `None` values are written as the text `None`. They are not left out
  (`Items.UnquotedCells`).
- String values are quoted without escaping. A quote inside a value, as in
  `O'Neil`, therefore ends the SQL string literal early. The model records
  this through `Items.Render`: the text between the quotes is the value
  itself, unchanged.
- When the value list is split at `", "`, a value that contains `", "`
  gives more cells than there are columns. `Items.ValuesAlignWithColumns`
  proves that, for that splitter, this is the only way the cells and
  columns can fall out of line. The splitter ignores quotes.

Further facts about the code that the model keeps:

- An unknown category raises the built-in `ValueError`. There is no
  dedicated error type.
- The serializer always writes the same seven columns, whatever attributes
  the item has, and it never leaves out unset values.
- Items built by `create_clothes` do not record their category.
- `create_clothes` binds `category` as its own parameter. A keyword
  `category` is therefore a `TypeError` at the call, before the category is
  checked.

## Model

| member | source | states |
|---|---|---|
| `Items.Clothes.constructor` | src/clothes/items.py:9-36 | Each named argument is stored unchanged and an omitted one reads `None`. Every extra keyword becomes an attribute with its given value, and nothing else is added. |
| `Items.Clothes.Top` | src/clothes/items.py:68-88 | size, color, price, material and id are forwarded. category stays `None`. `sleeves` is the only extra attribute. |
| `Items.Clothes.Footwear` | src/clothes/items.py:94-111 | The same forwarding as `Top`: category `None` and no extra attribute. |
| `Items.Clothes.Headwear` | src/clothes/items.py:117-137 | The same forwarding as `Top`: category `None` and `style` as the only extra attribute. |
| `Items.Clothes.Bottoms` | src/clothes/items.py:143-163 | The same forwarding as `Top`: category `None` and `length` as the only extra attribute. |
| `Items.Clothes.SetAttribute` | src/clothes/items.py:35-36 | Assigning an attribute changes only that attribute. A name outside the six named ones goes to the added attributes. |
| `Items.SetAttr` | src/clothes/items.py:35-36 | After `setattr(name, v)`, `name` reads `v` and every other attribute reads as before. |
| `Items.LookupAll` | src/clothes/items.py:53 | Returns the values of the names in order. Otherwise it raises `AttributeError` for the first name that is missing, and only when some name is missing. |
| `Items.GetAttr` | src/clothes/items.py:53 | For instance attributes, `getattr` finds a name exactly when it is one of the six named attributes or an added one. An added name reads its stored value. |
| `Items.Render` | src/clothes/items.py:56 | A string value is written between single quotes, and the text between the quotes is the string itself, unescaped. Any other value is written as `str` writes it. |
| `Items.RenderAll` | src/clothes/items.py:54-59 | The comprehension over the values, defined by recursion. It is proved to give one cell per value, with cell i the rendering of value i. |
| `Items.ValueCells` | src/clothes/items.py:53-59 | Gives seven cells. Cell i renders the value of column i. |
| `Items.SqlQuery` | src/clothes/items.py:44-62 | Succeeds exactly when every column is an attribute, which means exactly when `style` is set. Otherwise the error is `AttributeError("style")`. |
| `Items.InsertStatement` | src/clothes/items.py:60-61 | The statement opens with the fixed head and closes with `)`. Reading the value list back between them gives the pieces of the joined cells. |
| `Items.Clothes.ToSqlQuery` | src/clothes/items.py:38-62 | On an item, the query succeeds exactly when the item has `style`. Otherwise it raises `AttributeError` for `style`. |
| `Items.StyleIsTheOnlyMissable` | src/clothes/items.py:29-53 | `style` is the only column an item can lack, and a failed lookup names it. |
| `Items.ColumnListFixed` | src/clothes/items.py:44-61 | Every statement starts with the same head and the same seven column names, for any item. The column list reads back as exactly those names. |
| `Items.ValuesAlignWithColumns` | src/clothes/items.py:53-61 | Reading the value list back gives at least seven cells. It gives exactly seven, each rendering its column's value, precisely when no rendered value contains `", "`. |
| `Items.OnlyColumnsMatter` | src/clothes/items.py:44-53 | Two items that agree on the seven columns serialise identically. Other attributes never reach the statement. |
| `Items.SetNonColumnKeepsQuery` | src/clothes/items.py:44-53 | Setting `sleeves`, `length` or any other instance attribute outside the columns leaves the serialised result unchanged. |
| `Items.QuotedOnlyStrings` | src/clothes/items.py:56 | Leaving floats aside, a cell starts with a single quote exactly when its value is a string. `None`, bools and ints are written bare. |
| `Items.TopNotSerialisable` | src/clothes/items.py:53 | Every item the `Top` constructor builds fails with `AttributeError("style")`, whatever its five forwarded values and its `sleeves`. |
| `Items.UnquotedCells` | src/clothes/items.py:56 | An unset column is written as the bare text `None`, and a bool column as `True` or `False`. Neither is quoted or left out. |
| `SqlText.JoinComma` | src/clothes/items.py:54-59 | `", ".join` of no parts is empty. Otherwise it starts with the first part, and its length is the parts' total plus two per separator. |
| `PyValues.Str` | src/clothes/items.py:56 | `str(None)` is `None`, and a bool gives `True` or `False`. An integer's text starts with `-` exactly when it is negative. For a non-negative integer it is all digits, and `int` reads it back to the same number. For a negative one, the text after the `-` reads back as its magnitude. |
| `SqlText.JoinReadBack` | src/clothes/items.py:54-61 | Splitting a `", "`-joined list gives back at least as many pieces as were joined. It gives back exactly the joined list iff no part contains `", "`. |
| `Decimal.NatText` | src/clothes/factory.py:61 | The decimal text of a non-negative integer: digits only, no leading zero, one digit exactly below 10. |
| `Decimal.IntText` | src/clothes/items.py:56 | The text of an integer starts with `-` exactly when it is negative. The rest is all digits, and `int` reads it back as the integer's magnitude. |
| `Decimal.Parse` | src/clothes/factory.py:61 | Reading k digits gives a number below 10^k. |
| `Decimal.ParseNatText` | src/clothes/factory.py:61 | `int(str(n)) == n`. |
| `Decimal.NatTextParse` | src/clothes/factory.py:61 | `str(int(s)) == s` for a digit string without a leading zero. |
| `Decimal.ParseAppend` | src/clothes/factory.py:61 | `int(a + b) == int(a) * 10^len(b) + int(b)`. |
| `Decimal.NatTextInjective` | src/clothes/factory.py:61 | Different numbers have different decimal texts. |
| `Factory.TablesAgree` | src/clothes/factory.py:17-28 | `item_id` and `item_types` know the same four categories. The prefixes are 1 to 4 and pairwise distinct. |
| `Factory.CategoryAt` | src/clothes/factory.py:71 | Each index of the category list names one category, and that category is in both tables. |
| `Factory.GenerateId` | src/clothes/factory.py:52-61 | The id equals prefix * 10^digits(t) + t. Its decimal text is the prefix's digit followed by the text of t. |
| `Factory.IdLeadsWithPrefix` | src/clothes/factory.py:61 | The leading decimal digit of an id is its category's prefix, which lies between 1 and 4. |
| `Factory.IdInjective` | src/clothes/factory.py:53-61 | Equal ids come from the same category and the same clock reading. |
| `Factory.Parameters` | src/clothes/factory.py:49 | Every variant takes `size`, `color`, `price`, `material` and `id`. Only a bare `Clothes` takes `category`. Among the four variants, the only other keyword each takes is its own extra attribute. A bare `Clothes` also takes any keyword through `**kwargs`. |
| `Factory.ExtraAttribute` | src/clothes/items.py:68-163 | `Top`, `Headwear` and `Bottoms` each add one attribute outside the six named ones; `Footwear` adds none. Only `Headwear`'s is a column. |
| `Factory.Instantiate` | src/clothes/factory.py:48-49 | A keyword `id` is a TypeError, and so is any keyword the variant does not take. Otherwise the variant receives the id and every keyword unchanged. It then serialises iff it is Headwear. |
| `Factory.CreateClothes` | src/clothes/factory.py:31-49 | A keyword `category` is a TypeError for the repeated argument. Otherwise it raises ValueError("Invalid item type: ...") exactly for an unknown category. Otherwise it returns the mapped variant with id `GenerateId(category, t)`, the keywords forwarded and category `None`. |
| `Factory.AddCategoryAttribute` | src/clothes/factory.py:86-94 | Sets exactly the category's own attribute to the drawn entry of its list: `sleeves` for Top, `style` (Cap/Hat/Beanie) for Headwear, `length` (Short/Medium/Long) for Bottoms. Footwear gets nothing, and no other attribute changes. |
| `Factory.CreateRandomClothes` | src/clothes/factory.py:63-96 | The category is one of the four and recorded on the item, with the id generated from it. size is the drawn integer in [30, 50]; color and material are the drawn entries of their lists; price is the drawn whole number of cents, in [10, 100]. The only extra attribute is the category's own, set to the drawn entry of its list. The item serialises iff it is Headwear. |

## Left out

- Class attributes are not attributes in the model. This covers the method
  `to_sql_query` and the dunder names. `getattr` of them is not modelled.
  Neither is an instance attribute that shadows one: after
  `item.to_sql_query = 0`, Python's call would raise `TypeError`, while the
  model keeps the name in `extra` and serialises as before.
- The database layer is not part of this model. That covers
  `src/database/connection.py` (MySQL connection, singleton, queries) and
  `src/database/generation.py` (database and table DDL), which are external
  I/O.
- `main.py`, `uml_generation.py` and `setup.py` are not part of this model:
  they are wiring, tool invocation and packaging. `src.utils.ConfigManager`
  is not part of this model.
- Floats: a price is a `real`. The text `str()` gives for a float is a
  function the serializer is given (`floatText`). Python's float formatting
  is not modelled.
- Factory.CreateRandomClothes: the price is the exact decimal `cents / 100`,
  not the nearest binary double that `round(random.uniform(10.0, 100.0), 2)`
  gives.
- `time.perf_counter_ns()` is a `nat` parameter. `random.choice` and
  `random.randint` are their outcomes, given as parameters. Two items of one
  category made on the same clock tick get the same id; the model shows
  this is the only way ids collide, and does not try to prevent it.
- Python's class hierarchy is a `kind` tag on one class, with one named
  constructor per subclass. Method lookup through inheritance is not
  modelled.
- The order in which `**kwargs` are applied is not modelled. The keys are
  distinct, so the resulting attributes do not depend on it.
- Exception messages: an AttributeError keeps only the attribute name.
  Factory.Instantiate does not say which unexpected keyword Python would
  name; Python names the first one in argument order.
- A bare `Clothes` called with `id`, `category` or another named attribute
  in `**kwargs` cannot happen in Python, because those names bind to the
  named parameters. The constructor's precondition states this.

=== FILE: decimal.dfy ===
/** Decimal text of integers, as Python's `str(int)` writes it and `int(str)`
    reads it back. The identifiers of the factory are built from this. */
module Decimal {

  predicate IsDigit(c: char) {
    '0' <= c <= '9'
  }

  predicate AllDigits(s: string) {
    forall i :: 0 <= i < |s| ==> IsDigit(s[i])
  }

  /** The character of a decimal digit. */
  function DigitChar(d: nat): (c: char)
    requires d < 10
    ensures IsDigit(c)
  {
    (48 + d) as char
  }

  /** The value of a digit character. */
  function DigitValue(c: char): (d: nat)
    requires IsDigit(c)
    ensures d < 10 && DigitChar(d) == c
  {
    c as int - 48
  }

  function Pow10(k: nat): (p: nat)
    ensures p >= 1
  {
    if k == 0 then 1 else 10 * Pow10(k - 1)
  }

  /** `str(n)` for a non-negative integer: no leading zero, and "0" for zero. */
  function NatText(n: nat): (s: string)
    ensures |s| >= 1 && AllDigits(s)
    ensures |s| == 1 <==> n < 10
    ensures s[0] != '0' || n == 0
    decreases n
  {
    if n < 10 then [DigitChar(n)] else NatText(n / 10) + [DigitChar(n % 10)]
  }

  /** `str(i)` for any integer: a minus sign before the text of |i|. */
  function IntText(i: int): (s: string)
    ensures |s| >= 1
    ensures s[0] == '-' <==> i < 0
    ensures i >= 0 ==> AllDigits(s) && Parse(s) == i
    ensures i < 0 ==> AllDigits(s[1..]) && Parse(s[1..]) == -i
  {
    if i < 0 then
      ParseNatText(-i);
      assert ("-" + NatText(-i))[1..] == NatText(-i);
      "-" + NatText(-i)
    else
      ParseNatText(i);
      NatText(i)
  }

  /** `int(s)` for a string of decimal digits (leading zeros allowed). */
  function Parse(s: string): (n: nat)
    requires AllDigits(s)
    ensures n < Pow10(|s|)
  {
    if s == [] then 0 else 10 * Parse(s[..|s| - 1]) + DigitValue(s[|s| - 1])
  }

  /** Reading back what `str` wrote gives the number again. */
  lemma {:induction false} ParseNatText(n: nat)
    ensures Parse(NatText(n)) == n
    decreases n
  {
    var s := NatText(n);
    if n >= 10 {
      ParseNatText(n / 10);
      assert s[..|s| - 1] == NatText(n / 10);
    }
  }

  /** `int(a + b)` is `int(a)` shifted by the length of `b`, plus `int(b)`. */
  lemma {:induction false} ParseAppend(a: string, b: string)
    requires AllDigits(a) && AllDigits(b)
    ensures Parse(a + b) == Parse(a) * Pow10(|b|) + Parse(b)
    decreases |b|
  {
    if b == [] {
      assert a + b == a;
    } else {
      var b', c := b[..|b| - 1], b[|b| - 1];
      assert a + b == (a + b') + [c];
      assert b == b' + [c];
      ParseAppend(a, b');
      ParseSnoc(a + b', c);
      ParseSnoc(b', c);
      ShiftStep(Parse(a), Pow10(|b'|), Parse(b'), DigitValue(c));
    }
  }

  /** Appending one digit multiplies by ten and adds the digit. */
  lemma ParseSnoc(s: string, c: char)
    requires AllDigits(s) && IsDigit(c)
    ensures AllDigits(s + [c]) && Parse(s + [c]) == 10 * Parse(s) + DigitValue(c)
  {
    assert (s + [c])[..|s|] == s;
  }

  lemma ShiftStep(p: nat, k: nat, q: nat, d: nat)
    ensures 10 * (p * k + q) + d == p * (10 * k) + (10 * q + d)
  {
  }

  /** A digit string without a leading zero is at least 10^(length - 1). */
  lemma {:induction false} ParseLowerBound(s: string)
    requires AllDigits(s) && |s| >= 1 && s[0] != '0'
    ensures Parse(s) >= Pow10(|s| - 1)
    decreases |s|
  {
    if |s| > 1 {
      var s' := s[..|s| - 1];
      ParseLowerBound(s');
    } else {
      assert DigitValue(s[0]) != 0;
    }
  }

  /** Writing out what `int` read gives the string back when it has no
      leading zero: decimal text is canonical. */
  lemma {:induction false} NatTextParse(s: string)
    requires AllDigits(s) && |s| >= 1 && s[0] != '0'
    ensures NatText(Parse(s)) == s
    decreases |s|
  {
    var n := Parse(s);
    var last := DigitValue(s[|s| - 1]);
    if |s| == 1 {
      assert n == last;
    } else {
      var s' := s[..|s| - 1];
      ParseLowerBound(s);
      assert n / 10 == Parse(s') && n % 10 == last;
      NatTextParse(s');
      assert s == s' + [s[|s| - 1]];
    }
  }

  /** Different numbers have different decimal texts. */
  lemma NatTextInjective(m: nat, n: nat)
    requires NatText(m) == NatText(n)
    ensures m == n
  {
    ParseNatText(m);
    ParseNatText(n);
  }
}

=== FILE: factory.dfy ===
/** `ClothesFactory`: the category tables, identifier generation, validated
    construction and random construction. The clock reading and the random
    draws are parameters. */
module Factory {
  import opened Decimal
  import opened PyValues
  import opened Items

  /** `item_id`: the one-digit prefix of each category's identifiers. */
  const ItemId: map<string, nat> := map["Top" := 1, "Footwear" := 2, "Headwear" := 3, "Bottoms" := 4]

  /** `item_types`: the class each category is built as. */
  const ItemTypes: map<string, ItemClass> :=
    map["Top" := TopClass, "Footwear" := FootwearClass, "Headwear" := HeadwearClass, "Bottoms" := BottomsClass]

  /** The lists `create_random_clothes` draws from. */
  const Categories: seq<string> := ["Top", "Footwear", "Headwear", "Bottoms"]
  const Colors: seq<string> := ["Red", "Blue", "Green", "Black", "White"]
  const Materials: seq<string> := ["Cotton", "Leather", "Wool", "Denim"]
  const SleeveChoices: seq<bool> := [true, false]
  const Styles: seq<string> := ["Cap", "Hat", "Beanie"]
  const Lengths: seq<string> := ["Short", "Medium", "Long"]

  /** Both tables know the same four categories, and the prefixes tell them apart. */
  lemma TablesAgree()
    ensures ItemId.Keys == ItemTypes.Keys == set c | c in Categories
    ensures forall c :: c in ItemId ==> 1 <= ItemId[c] <= 4
    ensures forall c, d :: c in ItemId && d in ItemId && ItemId[c] == ItemId[d] ==> c == d
  {
    var four := {"Top", "Footwear", "Headwear", "Bottoms"};
    assert ItemId.Keys == four && ItemTypes.Keys == four;
    assert (set c | c in Categories) == four by {
      assert forall c :: c in Categories <==> c in four;
    }
  }

  /** Which category each index of the list names. */
  lemma CategoryAt(i: nat)
    requires i < |Categories|
    ensures Categories[i] in ItemTypes && Categories[i] in ItemId
    ensures Categories[i] == "Top" <==> i == 0
    ensures Categories[i] == "Footwear" <==> i == 1
    ensures Categories[i] == "Headwear" <==> i == 2
    ensures Categories[i] == "Bottoms" <==> i == 3
  {
  }

  /** `_generate_id(category)` when the clock reads `t` nanoseconds: the prefix
      and the clock written one after the other, read back as one integer. It
      is the prefix shifted left by the number of digits of `t`, plus `t`. */
  function GenerateId(category: string, t: nat): (id: nat)
    requires category in ItemId
    ensures id == ItemId[category] * Pow10(|NatText(t)|) + t
    ensures NatText(id) == NatText(ItemId[category]) + NatText(t)
  {
    var prefix, clock := NatText(ItemId[category]), NatText(t);
    ParseAppend(prefix, clock);
    ParseNatText(ItemId[category]);
    ParseNatText(t);
    NatTextParse(prefix + clock);
    Parse(prefix + clock)
  }

  /** The leading decimal digit of an identifier is its category's prefix. */
  lemma IdLeadsWithPrefix(category: string, t: nat)
    requires category in ItemId
    ensures 1 <= ItemId[category] <= 4
    ensures NatText(GenerateId(category, t))[0] == DigitChar(ItemId[category])
  {
  }

  /** Identifiers are unique per input: different categories never collide,
      and one category collides only on the same clock reading. */
  lemma {:induction false} IdInjective(c1: string, t1: nat, c2: string, t2: nat)
    requires c1 in ItemId && c2 in ItemId
    requires GenerateId(c1, t1) == GenerateId(c2, t2)
    ensures c1 == c2 && t1 == t2
  {
    var s1, s2 := NatText(t1), NatText(t2);
    var text := NatText(GenerateId(c1, t1));
    assert text == NatText(ItemId[c1]) + s1 == NatText(ItemId[c2]) + s2;
    assert text[0] == DigitChar(ItemId[c1]) == DigitChar(ItemId[c2]);
    assert ItemId[c1] == DigitValue(DigitChar(ItemId[c1]));
    assert c1 == c2;
    assert s1 == text[1..] == s2;
    NatTextInjective(t1, t2);
  }

  /** The keyword parameters each class's constructor accepts. (A bare
      `Clothes` also collects any other keyword in `**kwargs`; the factory
      never instantiates it.) */
  function Parameters(k: ItemClass): (r: set<string>)
    ensures {"size", "color", "price", "material", "id"} <= r
    ensures "category" in r <==> k == ClothesClass
    ensures ExtraAttribute(k).Some? ==> ExtraAttribute(k).value in r
    ensures forall n :: n in r && n !in NamedAttributes ==> ExtraAttribute(k) == Some(n)
  {
    {"size", "color", "price", "material", "id"} +
    match k
    case TopClass => {"sleeves"}
    case HeadwearClass => {"style"}
    case BottomsClass => {"length"}
    case FootwearClass => {}
    case ClothesClass => {"category"}
  }

  /** The argument given for `name`, or the parameter's default `None`. */
  function KwArg(kwargs: map<string, Value>, name: string): Value
  {
    if name in kwargs then kwargs[name] else VNone
  }

  /** The extra attribute a class's constructor adds, if any. */
  function ExtraAttribute(k: ItemClass): (r: Option<string>)
    ensures r.Some? <==> k == TopClass || k == HeadwearClass || k == BottomsClass
    ensures r.Some? ==> r.value !in NamedAttributes
    ensures (r.Some? && r.value in Columns) <==> k == HeadwearClass
  {
    match k
    case TopClass => Some("sleeves")
    case HeadwearClass => Some("style")
    case BottomsClass => Some("length")
    case _ => None
  }

  /** `constructor(id=id, **kwargs)` for the variant class `k`: a keyword
      `id` is given twice and any keyword the constructor lacks is
      unexpected, both TypeError; otherwise the object that constructor builds. */
  method Instantiate(k: ItemClass, id: Value, kwargs: map<string, Value>) returns (r: Result<Clothes>)
    requires k != ClothesClass
    ensures "id" in kwargs ==> r == Err(TypeError(MultipleValues("id")))
    ensures "id" !in kwargs && !(kwargs.Keys <= Parameters(k)) ==> r == Err(TypeError(UnexpectedKeyword))
    ensures r.Ok? <==> "id" !in kwargs && kwargs.Keys <= Parameters(k)
    ensures r.Ok? ==>
      var item := r.value;
      && fresh(item) && item.Valid() && item.kind == k
      && item.id == id && item.category == VNone
      && item.size == KwArg(kwargs, "size") && item.color == KwArg(kwargs, "color")
      && item.price == KwArg(kwargs, "price") && item.material == KwArg(kwargs, "material")
      && item.extra == (match ExtraAttribute(k)
                        case Some(name) => map[name := KwArg(kwargs, name)]
                        case None => map[])
    ensures r.Ok? ==> (Serialisable(r.value.Snapshot()) <==> k == HeadwearClass)
  {
    if "id" in kwargs {
      return Err(TypeError(MultipleValues("id")));
    }
    if !(kwargs.Keys <= Parameters(k)) {
      return Err(TypeError(UnexpectedKeyword));
    }
    var size, color := KwArg(kwargs, "size"), KwArg(kwargs, "color");
    var price, material := KwArg(kwargs, "price"), KwArg(kwargs, "material");
    var item: Clothes;
    if k == TopClass {
      item := new Clothes.Top(size, color, price, KwArg(kwargs, "sleeves"), material, id);
    } else if k == FootwearClass {
      item := new Clothes.Footwear(size, color, price, material, id);
    } else if k == HeadwearClass {
      item := new Clothes.Headwear(size, color, price, KwArg(kwargs, "style"), material, id);
    } else {
      item := new Clothes.Bottoms(size, color, price, KwArg(kwargs, "length"), material, id);
    }
    StyleIsTheOnlyMissable(item.Snapshot());
    return Ok(item);
  }

  /** `create_clothes(category, **kwargs)` when the clock reads `t`. A keyword
      `category` collides with the positional parameter and is a TypeError at
      the call. An unknown category raises ValueError before any id is made;
      otherwise the mapped variant is instantiated with the generated id and
      every keyword forwarded unchanged, its category left `None`. */
  method CreateClothes(category: string, kwargs: map<string, Value>, t: nat) returns (r: Result<Clothes>)
    ensures "category" in kwargs ==> r == Err(TypeError(MultipleValues("category")))
    ensures "category" !in kwargs && category !in ItemTypes ==> r == Err(ValueError("Invalid item type: " + category))
    ensures "category" !in kwargs && category in ItemTypes && "id" in kwargs ==> r == Err(TypeError(MultipleValues("id")))
    ensures "category" !in kwargs && category in ItemTypes && "id" !in kwargs
            && !(kwargs.Keys <= Parameters(ItemTypes[category]))
            ==> r == Err(TypeError(UnexpectedKeyword))
    ensures r.Ok? <==> "category" !in kwargs && category in ItemTypes && "id" !in kwargs
                       && kwargs.Keys <= Parameters(ItemTypes[category])
    ensures r.Ok? ==>
      var item, k := r.value, ItemTypes[category];
      && fresh(item) && item.Valid() && item.kind == k
      && item.id == VInt(GenerateId(category, t))
      && item.category == VNone
      && item.size == KwArg(kwargs, "size") && item.color == KwArg(kwargs, "color")
      && item.price == KwArg(kwargs, "price") && item.material == KwArg(kwargs, "material")
      && item.extra == (match ExtraAttribute(k)
                        case Some(name) => map[name := KwArg(kwargs, name)]
                        case None => map[])
    ensures r.Ok? ==> (Serialisable(r.value.Snapshot()) <==> category == "Headwear")
  {
    if "category" in kwargs {
      return Err(TypeError(MultipleValues("category")));
    }
    if category !in ItemTypes {
      return Err(ValueError("Invalid item type: " + category));
    }
    var id := GenerateId(category, t);
    var itemType := ItemTypes[category];
    assert itemType == HeadwearClass <==> category == "Headwear";
    r := Instantiate(itemType, VInt(id), kwargs);
  }

  /** The `if`/`elif` chain of `create_random_clothes`: the attribute of the
      category, drawn from its list, is set on an item that had none. */
  method AddCategoryAttribute(clothes: Clothes, category: string, extraChoice: nat)
    requires clothes.Valid() && clothes.extra == map[]
    requires category == "Top" ==> extraChoice < |SleeveChoices|
    requires category == "Headwear" ==> extraChoice < |Styles|
    requires category == "Bottoms" ==> extraChoice < |Lengths|
    modifies clothes
    ensures clothes.Valid()
    ensures old(clothes.Snapshot()).(extra := clothes.extra) == clothes.Snapshot()
    ensures category == "Top" ==> clothes.extra == map["sleeves" := VBool(SleeveChoices[extraChoice])]
    ensures category == "Headwear" ==>
      clothes.extra == map["style" := VStr(Styles[extraChoice])] && clothes.extra["style"].s in Styles
    ensures category == "Bottoms" ==>
      clothes.extra == map["length" := VStr(Lengths[extraChoice])] && clothes.extra["length"].s in Lengths
    ensures category !in {"Top", "Headwear", "Bottoms"} ==> clothes.extra == map[]
  {
    if category == "Top" {
      clothes.SetAttribute("sleeves", VBool(SleeveChoices[extraChoice]));
      assert clothes.extra == map["sleeves" := VBool(SleeveChoices[extraChoice])];
    } else if category == "Headwear" {
      clothes.SetAttribute("style", VStr(Styles[extraChoice]));
      assert clothes.extra == map["style" := VStr(Styles[extraChoice])];
    } else if category == "Bottoms" {
      clothes.SetAttribute("length", VStr(Lengths[extraChoice]));
      assert clothes.extra == map["length" := VStr(Lengths[extraChoice])];
    }
  }

  /** `create_random_clothes`, with each random draw given as its outcome: an
      index into the list `random.choice` picks from, the `randint` size,
      the price in cents, and the clock reading `t`. `extraChoice` is drawn
      only for Top (two sleeve choices), Headwear and Bottoms (three each). */
  method CreateRandomClothes(categoryChoice: nat, size: int, colorChoice: nat, priceCents: int,
                             materialChoice: nat, extraChoice: nat, t: nat)
    returns (clothes: Clothes)
    requires categoryChoice < |Categories|
    requires 30 <= size <= 50
    requires colorChoice < |Colors|
    requires 1000 <= priceCents <= 10000
    requires materialChoice < |Materials|
    requires Categories[categoryChoice] == "Top" ==> extraChoice < |SleeveChoices|
    requires Categories[categoryChoice] == "Headwear" ==> extraChoice < |Styles|
    requires Categories[categoryChoice] == "Bottoms" ==> extraChoice < |Lengths|
    ensures var category := Categories[categoryChoice];
      && fresh(clothes) && clothes.Valid() && clothes.kind == ClothesClass
      && category in ItemTypes
      && clothes.category == VStr(category)
      && clothes.id == VInt(GenerateId(category, t))
      && clothes.size == VInt(size) && 30 <= clothes.size.i <= 50
      && clothes.color == VStr(Colors[colorChoice]) && clothes.color.s in Colors
      && clothes.price.VFloat? && 10.0 <= clothes.price.x <= 100.0
      && clothes.price.x * 100.0 == priceCents as real
      && clothes.material == VStr(Materials[materialChoice]) && clothes.material.s in Materials
    ensures Categories[categoryChoice] == "Top" ==>
      clothes.extra == map["sleeves" := VBool(SleeveChoices[extraChoice])]
    ensures Categories[categoryChoice] == "Headwear" ==>
      clothes.extra == map["style" := VStr(Styles[extraChoice])] && clothes.extra["style"].s in Styles
    ensures Categories[categoryChoice] == "Bottoms" ==>
      clothes.extra == map["length" := VStr(Lengths[extraChoice])] && clothes.extra["length"].s in Lengths
    ensures Categories[categoryChoice] == "Footwear" ==> clothes.extra == map[]
    ensures Serialisable(clothes.Snapshot()) <==> Categories[categoryChoice] == "Headwear"
  {
    var category := Categories[categoryChoice];
    CategoryAt(categoryChoice);
    var color := Colors[colorChoice];
    var price := priceCents as real / 100.0;
    var material := Materials[materialChoice];
    clothes := new Clothes(id := VInt(GenerateId(category, t)), category := VStr(category),
                           size := VInt(size), color := VStr(color), price := VFloat(price),
                           material := VStr(material));
    AddCategoryAttribute(clothes, category, extraChoice);
    assert "style" in clothes.extra <==> category == "Headwear";
    StyleIsTheOnlyMissable(clothes.Snapshot());
  }
}

=== FILE: items.dfy ===
/** Clothing items: the `Clothes` object with its dynamically added attributes,
    the constructors of the four variants, and `to_sql_query`. */
module Items {
  import opened Decimal
  import opened PyValues
  import opened SqlText

  /** The Python class an item was constructed as. */
  datatype ItemClass = ClothesClass | TopClass | FootwearClass | HeadwearClass | BottomsClass

  /** The attributes `Clothes.__init__` binds by name. Python never passes
      them through `**kwargs`, so no added attribute can carry one of them. */
  const NamedAttributes: set<string> := {"size", "color", "price", "material", "id", "category"}

  /** An item's attributes at one moment: the six named ones, each possibly
      `None`, and the ones added by `setattr` under any other name. */
  datatype Attrs = Attrs(
    size: Value, color: Value, price: Value, material: Value, id: Value, category: Value,
    extra: map<string, Value>)

  predicate WellFormed(a: Attrs) {
    a.extra.Keys !! NamedAttributes
  }

  /** `getattr(item, name)`: `None` here stands for the AttributeError. */
  function GetAttr(a: Attrs, name: string): (r: Option<Value>)
    ensures r.Some? <==> name in NamedAttributes || name in a.extra
    ensures name !in NamedAttributes && name in a.extra ==> r == Some(a.extra[name])
  {
    if name == "size" then Some(a.size)
    else if name == "color" then Some(a.color)
    else if name == "price" then Some(a.price)
    else if name == "material" then Some(a.material)
    else if name == "id" then Some(a.id)
    else if name == "category" then Some(a.category)
    else if name in a.extra then Some(a.extra[name])
    else None
  }

  /** `setattr(item, name, v)`: afterwards `name` reads `v` and every other
      attribute reads as before. */
  function SetAttr(a: Attrs, name: string, v: Value): (r: Attrs)
    requires WellFormed(a)
    ensures WellFormed(r)
    ensures GetAttr(r, name) == Some(v)
    ensures forall n :: n != name ==> GetAttr(r, n) == GetAttr(a, n)
    ensures name !in NamedAttributes ==> r == a.(extra := a.extra[name := v])
  {
    if name == "size" then a.(size := v)
    else if name == "color" then a.(color := v)
    else if name == "price" then a.(price := v)
    else if name == "material" then a.(material := v)
    else if name == "id" then a.(id := v)
    else if name == "category" then a.(category := v)
    else a.(extra := a.extra[name := v])
  }

  /** A clothing item. `kind` is its Python class; the four variants are the
      named constructors. Attributes set outside the six named ones live in
      `extra`, as they would in the instance dictionary. */
  class Clothes {
    const kind: ItemClass
    var size: Value
    var color: Value
    var price: Value
    var material: Value
    var id: Value
    var category: Value
    var extra: map<string, Value>

    ghost predicate Valid()
      reads this
    {
      WellFormed(Snapshot())
    }

    /** The attributes the object holds now. */
    function Snapshot(): (a: Attrs)
      reads this
    {
      Attrs(size, color, price, material, id, category, extra)
    }

    /** `Clothes.__init__`: the named arguments stored unchanged (unset ones
        `None`), then every extra keyword added as an attribute of its own. */
    constructor (size: Value := VNone, color: Value := VNone, price: Value := VNone,
                 material: Value := VNone, id: Value := VNone, category: Value := VNone,
                 kwargs: map<string, Value> := map[])
      requires kwargs.Keys !! NamedAttributes
      ensures Valid() && kind == ClothesClass
      ensures Snapshot() == Attrs(size, color, price, material, id, category, kwargs)
    {
      kind := ClothesClass;
      this.size, this.color, this.price, this.material := size, color, price, material;
      this.id, this.category := id, category;
      extra := map[];
      new;
      var pending := kwargs.Keys;
      while pending != {}
        invariant pending <= kwargs.Keys && Valid()
        invariant this.size == size && this.color == color && this.price == price
        invariant this.material == material && this.id == id && this.category == category
        invariant extra == map k | k in kwargs.Keys - pending :: kwargs[k]
        decreases pending
      {
        var key :| key in pending;
        SetAttribute(key, kwargs[key]);
        pending := pending - {key};
      }
    }

    /** `Top.__init__`: no category is passed on, so it stays `None`;
        `sleeves` is added. */
    constructor Top(size: Value := VNone, color: Value := VNone, price: Value := VNone,
                    sleeves: Value := VNone, material: Value := VNone, id: Value := VNone)
      ensures Valid() && kind == TopClass
      ensures Snapshot() == Attrs(size, color, price, material, id, VNone, map["sleeves" := sleeves])
    {
      kind := TopClass;
      this.size, this.color, this.price, this.material := size, color, price, material;
      this.id, this.category := id, VNone;
      extra := map[];
      new;
      SetAttribute("sleeves", sleeves);
    }

    /** `Footwear.__init__`: the base attributes only, category `None`. */
    constructor Footwear(size: Value := VNone, color: Value := VNone, price: Value := VNone,
                         material: Value := VNone, id: Value := VNone)
      ensures Valid() && kind == FootwearClass
      ensures Snapshot() == Attrs(size, color, price, material, id, VNone, map[])
    {
      kind := FootwearClass;
      this.size, this.color, this.price, this.material := size, color, price, material;
      this.id, this.category := id, VNone;
      extra := map[];
    }

    /** `Headwear.__init__`: category `None`; `style` is added. */
    constructor Headwear(size: Value := VNone, color: Value := VNone, price: Value := VNone,
                         style: Value := VNone, material: Value := VNone, id: Value := VNone)
      ensures Valid() && kind == HeadwearClass
      ensures Snapshot() == Attrs(size, color, price, material, id, VNone, map["style" := style])
    {
      kind := HeadwearClass;
      this.size, this.color, this.price, this.material := size, color, price, material;
      this.id, this.category := id, VNone;
      extra := map[];
      new;
      SetAttribute("style", style);
    }

    /** `Bottoms.__init__`: category `None`; `length` is added. */
    constructor Bottoms(size: Value := VNone, color: Value := VNone, price: Value := VNone,
                        length: Value := VNone, material: Value := VNone, id: Value := VNone)
      ensures Valid() && kind == BottomsClass
      ensures Snapshot() == Attrs(size, color, price, material, id, VNone, map["length" := length])
    {
      kind := BottomsClass;
      this.size, this.color, this.price, this.material := size, color, price, material;
      this.id, this.category := id, VNone;
      extra := map[];
      new;
      SetAttribute("length", length);
    }

    /** Attribute assignment `item.name = v`, named or not. */
    method SetAttribute(name: string, v: Value)
      requires Valid()
      modifies this
      ensures Valid()
      ensures Snapshot() == SetAttr(old(Snapshot()), name, v)
      ensures name !in NamedAttributes ==>
                extra == old(extra)[name := v] && old(Snapshot()).(extra := extra) == Snapshot()
    {
      if name == "size" { size := v; }
      else if name == "color" { color := v; }
      else if name == "price" { price := v; }
      else if name == "material" { material := v; }
      else if name == "id" { id := v; }
      else if name == "category" { category := v; }
      else { extra := extra[name := v]; }
    }

    /** `to_sql_query`: succeeds exactly when the object has a `style`
        attribute; otherwise the lookup of `style` raises. */
    function ToSqlQuery(floatText: real -> string): (r: Result<string>)
      reads this
      requires Valid()
      ensures r.Ok? <==> "style" in extra
      ensures r.Err? ==> r.error == AttributeError("style")
      ensures r.Ok? ==> r == Ok(InsertStatement(Snapshot(), floatText))
    {
      SqlQuery(Snapshot(), floatText)
    }
  }

  /** The attribute names the serializer reads, in column order. */
  const Columns: seq<string> := ["id", "category", "size", "color", "price", "material", "style"]

  /** The indentation of the second line of the statement (20 spaces). */
  const Indent: string := "                    "

  /** Everything before the value list: fixed, whatever the item. */
  const StatementHead: string := "INSERT INTO Clothes (" + JoinComma(Columns) + ")\n" + Indent + "VALUES ("

  /** An item can be serialised when it has every column as an attribute. */
  predicate Serialisable(a: Attrs) {
    forall i :: 0 <= i < |Columns| ==> GetAttr(a, Columns[i]).Some?
  }

  /** `[getattr(self, name) for name in names]`: the values in order, or the
      AttributeError of the first name the item lacks. */
  function LookupAll(a: Attrs, names: seq<string>): (r: Result<seq<Value>>)
    ensures r.Ok? <==> forall i :: 0 <= i < |names| ==> GetAttr(a, names[i]).Some?
    ensures r.Ok? ==> |r.value| == |names| &&
                      forall i :: 0 <= i < |names| ==> GetAttr(a, names[i]) == Some(r.value[i])
    ensures r.Err? ==> exists i :: 0 <= i < |names| && GetAttr(a, names[i]).None? &&
                                   r.error == AttributeError(names[i]) &&
                                   forall j :: 0 <= j < i ==> GetAttr(a, names[j]).Some?
    decreases |names|
  {
    if names == [] then Ok([])
    else
      match GetAttr(a, names[0])
      case None => Err(AttributeError(names[0]))
      case Some(v) =>
        match LookupAll(a, names[1..])
        case Err(e) => Err(e)
        case Ok(vs) => Ok([v] + vs)
  }

  /** One cell of the value list: a string between single quotes, with no
      escaping of quotes inside it; anything else as `str` writes it. */
  function Render(v: Value, floatText: real -> string): (r: string)
    ensures v.VStr? ==> |r| == |v.s| + 2 && r[0] == '\'' == r[|r| - 1] && r[1..|r| - 1] == v.s
    ensures !v.VStr? ==> r == Str(v, floatText)
  {
    if v.VStr? then "'" + v.s + "'" else Str(v, floatText)
  }

  /** The comprehension over the values: one cell per value, in order. */
  function RenderAll(vs: seq<Value>, floatText: real -> string): (r: seq<string>)
    ensures |r| == |vs|
    ensures forall i :: 0 <= i < |vs| ==> r[i] == Render(vs[i], floatText)
  {
    if vs == [] then [] else [Render(vs[0], floatText)] + RenderAll(vs[1..], floatText)
  }

  /** The statement `to_sql_query` builds from the column values it read:
      reading it back yields the pieces of the joined value list. */
  function InsertStatement(a: Attrs, floatText: real -> string): (q: string)
    requires Serialisable(a)
    ensures ReadValues(q) == Some(SplitComma(JoinComma(ValueCells(a, floatText))))
  {
    var values := LookupAll(a, Columns).value;
    var body := JoinComma(RenderAll(values, floatText));
    ReadValuesOfStatement(body);
    StatementHead + body + ")"
  }

  /** `Clothes.to_sql_query` on the attributes `a`. The six named attributes
      are always there, so it fails exactly when `style` is missing. */
  function SqlQuery(a: Attrs, floatText: real -> string): (r: Result<string>)
    ensures r.Ok? <==> Serialisable(a)
    ensures r.Ok? <==> "style" in a.extra
    ensures r.Err? ==> r.error == AttributeError("style")
  {
    var lookup := LookupAll(a, Columns);
    StyleIsTheOnlyMissable(a);
    if lookup.Err? then Err(lookup.error) else Ok(InsertStatement(a, floatText))
  }

  /** The six named attributes are always present, so `style` is the only
      column an item can lack. */
  lemma StyleIsTheOnlyMissable(a: Attrs)
    ensures Serialisable(a) <==> "style" in a.extra
    ensures !Serialisable(a) ==> LookupAll(a, Columns) == Err(AttributeError("style"))
  {
    assert GetAttr(a, Columns[6]).Some? <==> "style" in a.extra;
    assert forall i :: 0 <= i < 6 ==> GetAttr(a, Columns[i]).Some?;
  }

  /** The cell each column's value renders to. */
  function ValueCells(a: Attrs, floatText: real -> string): (r: seq<string>)
    requires Serialisable(a)
    ensures |r| == |Columns|
    ensures forall i :: 0 <= i < |Columns| ==> r[i] == Render(GetAttr(a, Columns[i]).value, floatText)
  {
    RenderAll(LookupAll(a, Columns).value, floatText)
  }

  /** Reads a statement back: the value list between the fixed head and the
      closing parenthesis, split at each `", "`. */
  function ReadValues(q: string): (r: Option<seq<string>>)
  {
    if |q| > |StatementHead| && q[..|StatementHead|] == StatementHead && q[|q| - 1] == ')'
    then Some(SplitComma(q[|StatementHead|..|q| - 1]))
    else None
  }

  /** The column list is the same seven names in the same order for every
      item, whatever its class or extra attributes, and it reads back as
      exactly those names; only the value list depends on the item. */
  lemma ColumnListFixed(a: Attrs, floatText: real -> string)
    requires Serialisable(a)
    ensures SplitComma(JoinComma(Columns)) == Columns
    ensures InsertStatement(a, floatText) == StatementHead + JoinComma(ValueCells(a, floatText)) + ")"
  {
    JoinReadBack(Columns);
    forall i | 0 <= i < |Columns| ensures !HasSeparator(Columns[i]) {
      NoSeparatorInName(Columns[i]);
    }
  }

  lemma NoSeparatorInName(name: string)
    requires name in Columns
    ensures !HasSeparator(name)
  {
  }

  /** One rendered value per column, in column order: reading the value list
      back gives one cell per column, each the rendering of that column's
      value, exactly when no rendered value contains `", "`. A string value
      holding `", "` yields more cells than columns. */
  lemma {:induction false} ValuesAlignWithColumns(a: Attrs, floatText: real -> string)
    requires Serialisable(a)
    ensures SqlQuery(a, floatText).Ok?
    ensures var cells := ReadValues(SqlQuery(a, floatText).value);
            && cells.Some?
            && |cells.value| >= |Columns|
            && (|cells.value| == |Columns| <==>
                forall i :: 0 <= i < |Columns| ==> !HasSeparator(ValueCells(a, floatText)[i]))
            && (|cells.value| == |Columns| ==>
                forall i :: 0 <= i < |Columns| ==>
                  cells.value[i] == Render(GetAttr(a, Columns[i]).value, floatText))
  {
    var parts := ValueCells(a, floatText);
    ColumnListFixed(a, floatText);
    ReadValuesOfStatement(JoinComma(parts));
    SplitJoin(parts);
    SplitEachAligned(parts);
  }

  /** The read-back finds exactly the list that follows the fixed head. */
  lemma ReadValuesOfStatement(body: string)
    ensures ReadValues(StatementHead + body + ")") == Some(SplitComma(body))
  {
    var head := StatementHead;
    var q := head + body + ")";
    assert q[..|head|] == head;
    assert q[|head|..|q| - 1] == body;
  }

  /** Only the seven columns matter: two items that agree on them give the
      same result, whatever else they carry (`sleeves`, `length`, others). */
  lemma OnlyColumnsMatter(a: Attrs, b: Attrs, floatText: real -> string)
    requires forall i :: 0 <= i < |Columns| ==> GetAttr(a, Columns[i]) == GetAttr(b, Columns[i])
    ensures SqlQuery(a, floatText) == SqlQuery(b, floatText)
  {
    LookupAllAgree(a, b, Columns);
  }

  lemma {:induction false} LookupAllAgree(a: Attrs, b: Attrs, names: seq<string>)
    requires forall i :: 0 <= i < |names| ==> GetAttr(a, names[i]) == GetAttr(b, names[i])
    ensures LookupAll(a, names) == LookupAll(b, names)
    decreases |names|
  {
    if names != [] {
      LookupAllAgree(a, b, names[1..]);
    }
  }

  /** Setting an attribute that is not a column never changes the statement. */
  lemma SetNonColumnKeepsQuery(a: Attrs, name: string, v: Value, floatText: real -> string)
    requires WellFormed(a) && name !in Columns
    ensures SqlQuery(SetAttr(a, name, v), floatText) == SqlQuery(a, floatText)
  {
    OnlyColumnsMatter(SetAttr(a, name, v), a, floatText);
  }

  /** Only strings are quoted: with floats aside, a cell starts with a
      single quote exactly when its value is a string. */
  lemma QuotedOnlyStrings(v: Value, floatText: real -> string)
    requires !v.VFloat?
    ensures |Render(v, floatText)| >= 1
    ensures Render(v, floatText)[0] == '\'' <==> v.VStr?
  {
  }

  /** Every item a `Top` constructor builds, whatever its five forwarded
      values and its `sleeves`, fails: it has no `style`. */
  lemma TopNotSerialisable(size: Value, color: Value, price: Value, material: Value, id: Value,
                           sleeves: Value, floatText: real -> string)
    ensures SqlQuery(Attrs(size, color, price, material, id, VNone, map["sleeves" := sleeves]), floatText)
            == Err(AttributeError("style"))
  {
  }

  /** An unset column is written as the bare text `None`, and a boolean as
      `True` or `False`: neither is quoted nor left out. */
  lemma UnquotedCells(a: Attrs, i: nat, floatText: real -> string)
    requires Serialisable(a) && i < |Columns|
    ensures GetAttr(a, Columns[i]) == Some(VNone) ==> ValueCells(a, floatText)[i] == "None"
    ensures GetAttr(a, Columns[i]) == Some(VBool(true)) ==> ValueCells(a, floatText)[i] == "True"
    ensures GetAttr(a, Columns[i]) == Some(VBool(false)) ==> ValueCells(a, floatText)[i] == "False"
  {
  }
}

=== FILE: pyvalues.dfy ===
/** The Python values that an item's attributes hold, how `str` renders them,
    and the exceptions the core can raise. */
module PyValues {
  import opened Decimal

  datatype Option<T> = None | Some(value: T)

  /** An attribute value. `price` is a Python float; it is kept as a real and
      its `str` rendering is left to a function the serializer is given. */
  datatype Value =
    | VNone
    | VBool(b: bool)
    | VInt(i: int)
    | VStr(s: string)
    | VFloat(x: real)

  /** Why calling a constructor with the given keywords raises `TypeError`. */
  datatype TypeErrorReason =
    | MultipleValues(param: string)   // keyword given twice
    | UnexpectedKeyword               // keyword the constructor does not take

  datatype PyError =
    | ValueError(message: string)
    | TypeError(reason: TypeErrorReason)
    | AttributeError(name: string)

  datatype Result<T> = Ok(value: T) | Err(error: PyError)

  /** `str(v)` for every value but a float, whose text `floatText` gives.
      An integer's text is signed exactly when it is negative, and `int`
      reads a non-negative one back unchanged. */
  function Str(v: Value, floatText: real -> string): (r: string)
    ensures v.VNone? ==> r == "None"
    ensures v.VBool? ==> r == (if v.b then "True" else "False")
    ensures v.VInt? ==> |r| >= 1 && (r[0] == '-' <==> v.i < 0)
    ensures v.VInt? && v.i >= 0 ==> AllDigits(r) && Parse(r) == v.i
    ensures v.VInt? && v.i < 0 ==> AllDigits(r[1..]) && Parse(r[1..]) == -v.i
  {
    match v
    case VNone => "None"
    case VBool(b) => if b then "True" else "False"
    case VInt(i) => IntText(i)
    case VStr(t) => t
    case VFloat(x) => floatText(x)
  }
}

=== FILE: sqltext.dfy ===
/** Python's `", ".join(parts)` and the splitting that undoes it: `s.split(", ")`,
    which cuts at each leftmost occurrence of the separator. The splitter is the
    reference against which the serializer's value list is read back. */
module SqlText {

  /** The combined length of the parts. */
  function TotalLength(parts: seq<string>): (n: nat)
  {
    if parts == [] then 0 else |parts[0]| + TotalLength(parts[1..])
  }

  /** `", ".join(parts)`: every part once, in order, with one separator
      between neighbours and none at either end. */
  function JoinComma(parts: seq<string>): (r: string)
    ensures parts == [] ==> r == ""
    ensures |parts| >= 1 ==> |r| == TotalLength(parts) + 2 * (|parts| - 1)
    ensures |parts| >= 1 ==> r[..|parts[0]|] == parts[0]
  {
    if |parts| == 0 then ""
    else if |parts| == 1 then parts[0]
    else parts[0] + ", " + JoinComma(parts[1..])
  }

  /** True when `", "` occurs somewhere in `s`. */
  predicate HasSeparator(s: string) {
    exists j :: 0 <= j < |s| - 1 && s[j] == ',' && s[j + 1] == ' '
  }

  /** Puts `c` in front of the first piece. */
  function ConsFirst(c: char, pieces: seq<string>): (r: seq<string>)
    requires |pieces| >= 1
    ensures |r| == |pieces|
  {
    [[c] + pieces[0]] + pieces[1..]
  }

  /** `s.split(", ")`: always at least one piece. */
  function SplitComma(s: string): (r: seq<string>)
    ensures |r| >= 1
    decreases |s|
  {
    if |s| < 2 then [s]
    else if s[0] == ',' && s[1] == ' ' then [""] + SplitComma(s[2..])
    else ConsFirst(s[0], SplitComma(s[1..]))
  }

  /** The pieces of each part in turn. */
  function SplitEach(parts: seq<string>): (r: seq<string>)
  {
    if parts == [] then [] else SplitComma(parts[0]) + SplitEach(parts[1..])
  }

  /** A string splits into itself alone exactly when it has no separator. */
  lemma {:induction false} SplitSingle(s: string)
    ensures |SplitComma(s)| == 1 <==> !HasSeparator(s)
    ensures !HasSeparator(s) ==> SplitComma(s) == [s]
    decreases |s|
  {
    if |s| >= 2 {
      if s[0] == ',' && s[1] == ' ' {
        assert HasSeparator(s);
      } else {
        SplitSingle(s[1..]);
        if HasSeparator(s) {
          var j :| 0 <= j < |s| - 1 && s[j] == ',' && s[j + 1] == ' ';
          assert j > 0;
          assert s[1..][j - 1] == ',' && s[1..][j] == ' ';
        }
        if HasSeparator(s[1..]) {
          var j :| 0 <= j < |s| - 2 && s[1..][j] == ',' && s[1..][j + 1] == ' ';
          assert s[j + 1] == ',' && s[j + 2] == ' ';
        }
        if !HasSeparator(s) {
          assert [s[0]] + s[1..] == s;
        }
      }
    }
  }

  /** A character that does not start a separator joins the first piece. */
  lemma SplitCons(c: char, t: string)
    requires |t| >= 1 && !(c == ',' && t[0] == ' ')
    ensures SplitComma([c] + t) == ConsFirst(c, SplitComma(t))
  {
    assert ([c] + t)[1..] == t;
  }

  /** Splitting never looks across a separator: the pieces of `x + ", " + rest`
      are those of `x` followed by those of `rest`. */
  lemma {:induction false} SplitAppend(x: string, rest: string)
    ensures SplitComma(x + ", " + rest) == SplitComma(x) + SplitComma(rest)
    decreases |x|, 1
  {
    if x == [] {
      assert x + ", " + rest == ", " + rest;
      assert (", " + rest)[2..] == rest;
    } else if |x| >= 2 && x[0] == ',' && x[1] == ' ' {
      SplitAppendAtSeparator(x, rest);
    } else {
      SplitAppendAtChar(x, rest);
    }
  }

  /** The case where `x` itself opens with a separator. */
  lemma {:induction false} SplitAppendAtSeparator(x: string, rest: string)
    requires |x| >= 2 && x[0] == ',' && x[1] == ' '
    ensures SplitComma(x + ", " + rest) == SplitComma(x) + SplitComma(rest)
    decreases |x|, 0
  {
    var t := x[2..] + ", " + rest;
    assert x + ", " + rest == ", " + t;
    assert (", " + t)[2..] == t;
    assert x == ", " + x[2..];
    assert (", " + x[2..])[2..] == x[2..];
    SplitAppend(x[2..], rest);
  }

  /** The case where the first character of `x` joins the first piece. */
  lemma {:induction false} SplitAppendAtChar(x: string, rest: string)
    requires |x| >= 1 && !(|x| >= 2 && x[0] == ',' && x[1] == ' ')
    ensures SplitComma(x + ", " + rest) == SplitComma(x) + SplitComma(rest)
    decreases |x|, 0
  {
    var t := x[1..] + ", " + rest;
    assert x + ", " + rest == [x[0]] + t;
    SplitCons(x[0], t);
    SplitAppend(x[1..], rest);
    var a, b := SplitComma(x[1..]), SplitComma(rest);
    assert ConsFirst(x[0], a + b) == ConsFirst(x[0], a) + b;
    if |x| == 1 {
      assert x[1..] == [] && a == [""] && [x[0]] + "" == x;
    } else {
      assert x == [x[0]] + x[1..];
      SplitCons(x[0], x[1..]);
    }
  }

  /** Splitting a joined list gives back the pieces of every part, in order. */
  lemma {:induction false} SplitJoin(parts: seq<string>)
    requires |parts| >= 1
    ensures SplitComma(JoinComma(parts)) == SplitEach(parts)
    decreases |parts|
  {
    if |parts| == 1 {
      assert SplitEach(parts[1..]) == [];
    } else {
      SplitJoin(parts[1..]);
      SplitAppend(parts[0], JoinComma(parts[1..]));
    }
  }

  /** The pieces of the parts are the parts themselves, one for one, exactly
      when no part contains the separator. */
  lemma {:induction false} SplitEachAligned(parts: seq<string>)
    ensures |SplitEach(parts)| >= |parts|
    ensures |SplitEach(parts)| == |parts| <==> forall i :: 0 <= i < |parts| ==> !HasSeparator(parts[i])
    ensures (forall i :: 0 <= i < |parts| ==> !HasSeparator(parts[i])) ==> SplitEach(parts) == parts
    decreases |parts|
  {
    if parts != [] {
      SplitSingle(parts[0]);
      SplitEachAligned(parts[1..]);
      if forall i :: 0 <= i < |parts| - 1 ==> !HasSeparator(parts[1..][i]) {
        assert forall i :: 1 <= i < |parts| ==> !HasSeparator(parts[i]) by {
          forall i | 1 <= i < |parts| ensures !HasSeparator(parts[i]) {
            assert parts[i] == parts[1..][i - 1];
          }
        }
      }
      assert [parts[0]] + parts[1..] == parts;
    }
  }

  /** Reading a joined list back recovers it exactly when no part contains the
      separator; otherwise more pieces come back than were joined. */
  lemma JoinReadBack(parts: seq<string>)
    requires |parts| >= 1
    ensures |SplitComma(JoinComma(parts))| >= |parts|
    ensures SplitComma(JoinComma(parts)) == parts <==> forall i :: 0 <= i < |parts| ==> !HasSeparator(parts[i])
  {
    SplitJoin(parts);
    SplitEachAligned(parts);
  }
}
